=== FILE: README.md ===
# poverty_map: the Vega/Leaflet adapter, the level-of-detail switch and the layer picker

This Dafny project models the behaviour of the poverty_map web front-end in three parts:

- **The Leaflet layer that hosts a Vega view** (`app/utils/VegaLayer.js`).
  - It normalises the Vega spec: the `zoom`, `latitude` and `longitude` signals and a mercator `projection` are injected when missing, and `padding` and `autosize` are forced.
  - It keeps a counter that disables and enables signals.
  - `_reset` copies the map's size, centre and zoom into five view signals. It writes only the values that differ and runs the view when something changed.
  - A change to one of the view's map signals moves the map.
- **The page script** (`app/index.js`).
  - It holds the tier currently shown (`''`, county, tract or block) and the three tier collections filled in by their loads.
  - The `zoomend` handler replaces the dataset when the zoom level asks for another tier.
  - The click handler of the picker selects a layer.
- **The layer picker** (`app/utils/populateLayers.js`). It splits the first feature's property keys into a poverty group and a population group and builds the radio-button HTML of each group, with the current layer checked.

The modules are:

- `JsValues`: the JavaScript values the code compares, and JavaScript truthiness.
- `Sequences`: distinctness and occurrence counts.
- `Engine`: the two collaborators, each reduced to the state the code reads and writes.
  - A Leaflet map has a viewport and its registered event names.
  - A Vega view has its signals, its `geo_units` rows, its listened signals and a log of the calls made on it, in order.
- `GraphSpec`: `_updateGraphSpec`.
  - A `Spec` class mutated in place.
  - The pure function `Normalized` that specifies it.
  - The lemmas about that function.
- `VegaLayer`: the `VegaLayer` class, with one method per operation. `_reset` is specified by the functions `Synced` and `SyncWrites`.
- `PopulateLayers`: `populateLayers` as pure functions, with the DOM writes returned as strings.
- `App`: the page script as the `PovertyMap` class. Its `zoomend` handler is specified by the function `ZoomEnd`.

Numbers are modelled as integers. The asynchronous steps (`Promise.resolve().then(...)`, `runAfter`) are each modelled as one atomic step.

Where the code departs from what its names and comments suggest, the model follows the code:

- `_onSignalChange` is gated by `_ignoreSignals`, and nothing ever assigns that field. The disable counter raised by `_reset` and `onAdd` therefore does not stop the callbacks. `ignoreSignals` is a field that the constructor sets to false and nothing changes.
- `onAdd` and `_reset` end with `.then(enableSignals, enableSignals)`. A failure inside them is therefore absorbed by the rejection handler. The only failure left is the counter's own `too many signal enables`.
- Each `onAdd` registers the map handlers again, and nothing removes them.
- A malformed `projections` section throws the same message as a malformed `signals` section: `signals must be an array`.
- A `zoomend` before a tier's load has finished replaces the dataset with that tier's still-empty collection.
- The county load marks the county tier as shown whatever the tier was.

## Model

| member | source | states |
|---|---|---|
| VegaLayer.VegaLayer.DisableSignals | app/utils/VegaLayer.js:36-38 | the counter rises by exactly one |
| VegaLayer.VegaLayer.EnableSignals | app/utils/VegaLayer.js:39-44 | the counter drops by one before the check; the outcome is `too many signal enables` exactly when the new value is negative |
| VegaLayer.VegaLayer.constructor | app/utils/VegaLayer.js:8-31 | a new layer has a zero counter, `_ignoreSignals` unset, no map, no view and no normalised spec |
| VegaLayer.VegaLayer.Initialize | app/utils/VegaLayer.js:33-46 | the counter is reset to 0; the spec is normalised in place exactly as `Normalized` says; the warnings are emitted; `_spec` is kept only when the normalisation succeeded |
| VegaLayer.VegaLayer.OnAdd | app/utils/VegaLayer.js:58-104 | the counter ends where it started; the outcome fails only when the counter was already negative; with a view, the view is kept; `latitude`, `longitude` and `zoom` are listened to; `moveend` (or `move`) and `zoomend` handlers are added; the view signals equal the map viewport after exactly the differing writes and one forced run; the map viewport and the rows are untouched; without a view (parse failure), neither the view nor the handlers change |
| VegaLayer.VegaLayer.Mount | app/utils/VegaLayer.js:75-102 | the listener and handler registrations in order, then a forced `_reset`: the signals are synced, the writes are logged, then one run |
| VegaLayer.VegaLayer.OnRemove | app/utils/VegaLayer.js:106-111 | a present view is finalised and dropped, and its signals, rows and listeners are left as they were; afterwards there is no view, and a second call does nothing |
| VegaLayer.VegaLayer.OnSignalChange | app/utils/VegaLayer.js:119-145 | when `_ignoreSignals` is set, or for a signal other than `latitude`/`longitude`/`zoom`, neither the map nor the view changes; otherwise only that component of the viewport changes, then the view is resynced, so it holds the new value, and runs iff a signal differed; the view's rows and listeners never change |
| VegaLayer.VegaLayer.Reset | app/utils/VegaLayer.js:147-188 | the counter ends where it started; without a view nothing is written and nothing runs; with a view the five signals equal the map's size, centre and zoom and every other signal is kept; the writes are exactly the differing values, in the order width, height, latitude, longitude, zoom; `runAsync` is called iff a signal differed or `force` is set |
| VegaLayer.SendSignal | app/utils/VegaLayer.js:165-172 | a signal is written only when its value is `!==` the candidate; the method returns 1 exactly when it wrote |
| VegaLayer.SendViewport | app/utils/VegaLayer.js:176-181 | the five sends leave the signals `Synced`, log exactly `SyncWrites`, and `changed` is 1 iff the view was not already in sync |
| VegaLayer.Synced | app/utils/VegaLayer.js:161-181 | after a `_reset`, the view holds the viewport; it gains the tracked signals and keeps every other signal's value |
| VegaLayer.SyncWrites | app/utils/VegaLayer.js:176-181 | no write happens iff the view already holds the viewport; there are at most five writes; each write targets a tracked signal whose value differs |
| VegaLayer.SyncedIsStable | app/utils/VegaLayer.js:176-186 | a second `_reset` with an unchanged map writes nothing (so a `_reset(false)` does not run), and syncing twice is syncing once |
| VegaLayer.SendElsewhere | app/utils/VegaLayer.js:177-181 | a send depends only on the value of its own signal, so the earlier sends do not affect it |
| GraphSpec.Normalized | app/utils/VegaLayer.js:194-255 | it succeeds iff neither section exists as a non-array; a failure is `signals must be an array`, with no warning; on failure the projections and fields are untouched, and a bad `signals` leaves the spec unchanged; on success `padding` is 0 and `autosize` is `none` |
| GraphSpec.UpdateGraphSpec | app/utils/VegaLayer.js:194-255 | the in-place edits of the spec object end in `Normalized` of the spec it started from, with the same warnings and outcome |
| GraphSpec.FindUndefined | app/utils/VegaLayer.js:201-216 | an absent section is created empty and all names are returned; a non-array section fails and is left alone; otherwise the names are returned that no entry declares with a truthy name |
| GraphSpec.DeleteDeclaredNames | app/utils/VegaLayer.js:209-215 | the loop deleting declared names leaves exactly the names that no entry declares, in their original order |
| GraphSpec.PushDeclarations | app/utils/VegaLayer.js:236-249 | one new entry is appended per missing name, after the existing entries |
| GraphSpec.OverrideField | app/utils/VegaLayer.js:223-233 | the field is set; a warning is raised iff the prior value was truthy and differed |
| GraphSpec.Spec.Push | app/utils/VegaLayer.js:237 | `push` appends one entry to the named section and nothing else changes |
| GraphSpec.Spec.SetSection | app/utils/VegaLayer.js:203 | `spec[section] = []` replaces that section only |
| GraphSpec.Spec.SetField | app/utils/VegaLayer.js:232 | `spec[key] = value` replaces that field only |
| GraphSpec.Keep | app/utils/VegaLayer.js:209-215 | a name survives iff it is not deleted; a distinct list stays distinct |
| GraphSpec.KeepTwice | app/utils/VegaLayer.js:210-214 | deleting names one entry at a time is deleting them all at once |
| GraphSpec.NormalizedDeclaresMapSignals | app/utils/VegaLayer.js:235-249 | after success, `zoom`, `latitude`, `longitude` and a `projection` are declared, and the author's entries come first and are unchanged |
| GraphSpec.NormalizedSignalsNamed | app/utils/VegaLayer.js:235-238 | for every name: the author's entries with that name are kept, and exactly one `{name}` is added iff it is a map signal no entry declared |
| GraphSpec.NormalizedProjectionsNamed | app/utils/VegaLayer.js:240-249 | for every name: the author's projections with that name are kept, and one mercator `projection` is added iff none was declared |
| GraphSpec.NormalizedFromAbsentSignals | app/utils/VegaLayer.js:202-204 | a spec without `signals` ends with exactly the three map signals |
| GraphSpec.NormalizedIdempotent | app/utils/VegaLayer.js:194-255 | normalising a normalised spec changes nothing and warns about nothing |
| GraphSpec.NormalizedWarnings | app/utils/VegaLayer.js:224-231 | a field's warning is raised iff its prior value was truthy and different; there are at most two warnings |
| GraphSpec.NamedDeclarations | app/utils/VegaLayer.js:236-238 | each distinct missing name is declared exactly once |
| GraphSpec.CountySpecNormalization | app/vega_spec/vega_county_spec.js:4-53 | the county spec already declares the map signals, the projection and `autosize`, so normalising it only sets `padding` to 0, with no warning |
| GraphSpec.CountySignalsComplete | app/vega_spec/vega_county_spec.js:8-17 | no map signal is missing from the county spec |
| GraphSpec.CountyProjectionsComplete | app/vega_spec/vega_county_spec.js:42-53 | no projection is missing from the county spec |
| PopulateLayers.Filter | app/utils/populateLayers.js:7 | `filter` keeps exactly the keys that satisfy the predicate, never more, and keeps distinct keys distinct |
| PopulateLayers.FilterAppend | app/utils/populateLayers.js:7-11 | filtering keeps the original key order |
| PopulateLayers.PovertyLayers | app/utils/populateLayers.js:7 | the poverty group holds exactly the keys starting with `poverty_`; distinct keys stay distinct (order: `FilterAppend`) |
| PopulateLayers.PopulationLayers | app/utils/populateLayers.js:10-11 | the population group holds exactly the keys equal to `total` or starting with `non_` or `hispanic`; distinct keys stay distinct |
| PopulateLayers.GroupsDisjoint | app/utils/populateLayers.js:7-11 | no key is both a poverty key and a population key |
| PopulateLayers.ExamplePovertyGroup | app/utils/populateLayers.js:7 | the keys `total, non_white, hispanic_any, poverty_rate, poverty_count, other_field` give the poverty group `poverty_rate, poverty_count` |
| PopulateLayers.ExamplePopulationGroup | app/utils/populateLayers.js:10-11 | the same keys give the population group `total, non_white, hispanic_any`; `other_field` is in neither group |
| PopulateLayers.Label | app/utils/populateLayers.js:17-19 | each label opens with the radio input whose `value` is the key, and ends with the key and `</label>` |
| PopulateLayers.LabelCheckedIff | app/utils/populateLayers.js:17-19 | a label is marked ` checked` iff its key is `===` the current `layer` signal |
| PopulateLayers.Reduce | app/utils/populateLayers.js:16-24 | the `reduce` appends to its start value the concatenation, in group order, of one label per key |
| PopulateLayers.LabelsAppend | app/utils/populateLayers.js:16-24 | the HTML of consecutive runs of keys is their HTML concatenated |
| PopulateLayers.Populate | app/utils/populateLayers.js:3-27 | an empty dataset gives nothing: `view.data('geo_units')[0]` is `undefined`, and reading its `properties` throws a TypeError before anything is written; otherwise the two HTML strings are the labels of the two groups of the first row's keys |
| PopulateLayers.CheckedLabelsOccurrences | app/utils/populateLayers.js:16-24 | the number of checked labels written for a list of keys is the number of times the current layer occurs in it (none when the layer is not a string) |
| PopulateLayers.AtMostOneChecked | app/utils/populateLayers.js:13-24 | with distinct keys, the current layer occurs at most once across the two groups, so at most one of their labels, counted one per key, is checked |
| PopulateLayers.PopulateChecksAtMostOne | app/utils/populateLayers.js:4-24 | the keys of a row are distinct, as `Object.keys` gives them (`Engine.PropertyKeys`), so of all the labels the picker that `populateLayers` writes, at most one is checked |
| Sequences.DistinctOccursAtMostOnce | app/utils/populateLayers.js:4 | in a list without repeats, such as the `Object.keys` of a row, a key occurs at most once, and exactly once iff it is in the list |
| App.TargetTier | app/index.js:106-127 | the target tier is county for zoom ≤ 8, tract for 8 < zoom ≤ 11, and block above 11 |
| App.TargetTierBoundaries | app/index.js:106-127 | zoom 8 gives county, 9 and 11 give tract, 12 gives block |
| App.TargetTierMonotone | app/index.js:106-127 | zooming in never asks for a coarser tier |
| App.ZoomEnd | app/index.js:103-132 | the handler switches iff the current tier is not the target, and always switches to the target |
| App.ZoomEndSettles | app/index.js:103-132 | a repeated `zoomend` at the same zoom does nothing |
| App.ZoomEndFromUnset | app/index.js:66-132 | from the initial `''`, the first `zoomend` always switches to the target |
| App.PovertyMap.constructor | app/index.js:53-96 | at page start the spec is normalised and, when Vega built a view, it is mounted on the map: `latitude`, `longitude` and `zoom` are listened to, `moveend` and `zoomend` handlers are added, the signals are synced to the viewport with one run, and the rows are untouched; the layer keeps the normalisation's warnings and `_ignoreSignals` stays unset, so the signal counter never gates `_onSignalChange`; `current_data` is `''`; the three collections are empty |
| App.PovertyMap.OnZoomEnd | app/index.js:103-132 | afterwards the current tier is the zoom's target; with no switch, neither the view nor the picker changes; on a switch, exactly one replace-and-run with that tier's collection (possibly still empty) happens, and the picker is refreshed from it; an empty collection does not stop the handler before `current_data` is set, because the TypeError of `populateLayers` is thrown inside the `runAfter` callback (`app/utils/updateViewData.js:9-12`), which Vega runs after the dataflow, not inside the handler |
| App.PovertyMap.UpdateViewData | app/utils/updateViewData.js:4-13 | `geo_units` is replaced wholesale by the rows and one run follows; the picker keeps its HTML when the rows are empty and is otherwise `populateLayers` of the rows |
| App.PovertyMap.RefreshPicker | app/utils/updateViewData.js:9-12 | with no rows, `populateLayers` throws at `view.data('geo_units')[0]` and the picker keeps its HTML; the error stays inside the `runAfter` callback and does not reach the caller of `updateViewData`; otherwise it becomes `populateLayers` of the current rows and `layer` signal |
| App.PovertyMap.OnCountyLoaded | app/index.js:69-80 | the county rows are kept, inserted and run, the picker is refreshed, and the county tier is marked as shown, whatever the tier was |
| App.PovertyMap.OnTractLoaded | app/index.js:85-88 | the tract load only keeps the rows |
| App.PovertyMap.OnBlockLoaded | app/index.js:93-96 | the block load only keeps the rows |
| App.PovertyMap.ChangeLayer | app/index.js:135-141 | the `layer` signal is written and the view is run iff the target's value is truthy and the target is not the container; propagation is always stopped |

## Left out

- Floating point: the latitude, longitude, zoom and map size are modelled as integers. The mercator scale and the other projection parameters are kept as the Vega expression strings and never evaluated.
- Leaflet and the DOM are not modelled:
  - the container `div`, `setPosition` and `containerPointToLayerPoint`;
  - the panes and tile layers of the page;
  - the emptying of the container in `onRemove`;
  - the `innerHTML` writes, which are modelled as the `picker` strings;
  - `addEventListener`.
- Vega internals are not modelled:
  - `vega.parse` and `View` construction: the built view is a parameter of `OnAdd`, and null stands for a parse failure;
  - `padding`, `initialize` and `hover` on the view;
  - the `warn`/`error` handler options;
  - rendering.
- Event dispatch is not modelled. The handlers that `onAdd` registers on the map are recorded by name. The map does not call them, and `setView` does not fire events. `OnSignalChange` calls `_reset` directly, as the source does.
- Promise scheduling is not modelled: each `onAdd`, `_reset` and `runAfter` callback is one atomic step, and interleavings are not modelled.
- GraphSpec.Warning: the text of the `Overriding ...` message is not modelled. The warning records the key and the new value. Where it goes, `onWarning` or the console, is not modelled.
- `Object.keys` ordering: a feature's keys are given in the order `Object.keys` returns them. The rule that integer-like keys come first is not modelled.
- GraphSpec.FindUndefined: requires distinct names. The source turns the names into a `Set`, and it is only called with the constant distinct lists `zoom, latitude, longitude` and `projection`.
- App.PovertyMap.constructor: the `poverty` and `population` elements start empty (`Picker("", "")`). Their real starting HTML comes from the page's markup, which is not part of this model.
- App.PovertyMap.constructor: requires a spec that normalises. Otherwise `L.vega` throws and the rest of the page script never runs.
- App.PovertyMap.constructor: requires a built view to declare the `layer` signal. This assumes the page's own spec, `app/vega_spec/vega_spec.js`, declares it. That file is not part of this model. Without the signal, Vega's `signal("layer")` would throw at `app/utils/populateLayers.js:13` and `app/index.js:137`, and the model does not capture that failure.
- App.PovertyMap.OnZoomEnd, App.PovertyMap.ChangeLayer, App.PovertyMap.OnCountyLoaded: require a view. The page dereferences `vega_layer._view` (`app/index.js:73`, `app/index.js:137`, `app/utils/updateViewData.js:5`), which throws a TypeError both after `onRemove` and when parsing failed and no view was ever set (the constructor accepts that case as `parsed == null`).
- Engine.LeafletMap.SetView: sets the zoom exactly. Leaflet limits it to the map's zoom range (at most 18 with the page's tile layers, `app/index.js:28`, `app/index.js:45`), so `OnSignalChange`'s promise that the view then holds the new `zoom` value holds only within that range. It is also modelled as an immediate, exact move: Leaflet animates a pan or zoom within one screen, so the `_reset()` that `_onSignalChange` schedules (`app/utils/VegaLayer.js:144`) may read the map before the move ends, and the model does not capture that.
- GraphSpec.Entry: cannot be `null`. A `null` entry in `signals` or `projections` makes `obj.name` throw a TypeError (`app/utils/VegaLayer.js:213`), and that failure is not modelled.
- `app/utils/loadTopoJSON.js` (the fetch and the TopoJSON decoding) is not part of this model. The loaded rows are parameters of the load methods.
- The spec file `app/vega_spec/vega_spec.js` imported by the page is not part of this model. The county spec is used as a fixture, reduced to the parts the normalisation reads.
- `webpack.config.js` is build configuration.
- The commented-out copies (`app/utils/VegaLayer.js:262-373`, `app/index.js:153-213`) are not modelled.
- `window.vega_layer = vega_layer` (`app/index.js:146`) is not modelled. `vega_layer` is a `const` scoped to `app/index.js`, so this global is how `app/utils/updateViewData.js:5` reaches the layer; the model passes the layer directly, as the `layer` field of `PovertyMap`.

=== FILE: app.dfy ===
/** The page script: one Leaflet map, one Vega layer added to it, the three
    tier datasets filled in by their loads, the `zoomend` level-of-detail
    switch and the click handler of the layer picker. */
module App {
  import opened JsValues
  import opened Engine
  import opened GraphSpec
  import opened VegaLayer
  import opened PopulateLayers

  /** `current_data`: `''` until the county load finishes, then the tier shown. */
  datatype Tier = Unset | County | Tract | Block

  /** The tier the `zoomend` handler aims for at a zoom level. */
  function TargetTier(zoom: int): (t: Tier)
    ensures t != Unset
    ensures t == County <==> zoom <= 8
    ensures t == Tract <==> 8 < zoom <= 11
    ensures t == Block <==> 11 < zoom
  {
    if zoom <= 8 then County else if zoom <= 11 then Tract else Block
  }

  /** Coarse to fine. */
  function Rank(t: Tier): nat {
    match t
    case Unset => 0
    case County => 1
    case Tract => 2
    case Block => 3
  }

  /** Zooming in never asks for a coarser tier. */
  lemma TargetTierMonotone(z1: int, z2: int)
    requires z1 <= z2
    ensures Rank(TargetTier(z1)) <= Rank(TargetTier(z2))
  {
  }

  /** The boundary zoom levels: 8 is county, 9 and 11 are tract, 12 is block. */
  lemma TargetTierBoundaries()
    ensures TargetTier(8) == County && TargetTier(9) == Tract
    ensures TargetTier(11) == Tract && TargetTier(12) == Block
  {
  }

  /** The `if` / `else if` chain of the `zoomend` handler: the tier it switches
      to, or None when it does nothing. It switches exactly when the current
      tier is not the target, and always to the target. */
  function ZoomEnd(current: Tier, zoom: int): (r: Option<Tier>)
    ensures r == None <==> current == TargetTier(zoom)
    ensures r.Some? ==> r.value == TargetTier(zoom)
  {
    if zoom <= 8 && current != County then Some(County)
    else if zoom > 8 && zoom <= 11 && current != Tract then Some(Tract)
    else if zoom > 11 && current != Block then Some(Block)
    else None
  }

  /** Whatever the handler did, running it again at the same zoom does nothing. */
  lemma ZoomEndSettles(current: Tier, zoom: int)
    ensures var next := if ZoomEnd(current, zoom).Some? then ZoomEnd(current, zoom).value else current;
            ZoomEnd(next, zoom) == None
  {
  }

  /** The tier shown before the county load finishes is `''`, which is no
      target: the first `zoomend` always switches. */
  lemma ZoomEndFromUnset(zoom: int)
    ensures ZoomEnd(Unset, zoom) == Some(TargetTier(zoom))
  {
  }

  /** The picker after a refresh: `populateLayers` throws on an empty dataset
      before it writes anything, so the old HTML stays. */
  function Refreshed(before: Picker, p: Option<Picker>): Picker {
    if p.Some? then p.value else before
  }

  class PovertyMap {
    /** `vega_layer`, added to `poverty_map` when the page starts. */
    const layer: VegaLayer
    var current: Tier
    var countyData: seq<Feature>
    var tractData: seq<Feature>
    var blockData: seq<Feature>
    /** The `poverty` and `population` elements of the layer picker. */
    var picker: Picker

    /** The layer keeps its view consistent, and the view declares the `layer`
        signal that the picker reads and the click handler writes. */
    ghost predicate Valid()
      reads this, layer, layer.view
    {
      layer.Valid() && (layer.view != null ==> "layer" in layer.view.signals)
    }

    /** The collection the handler hands to `updateViewData` for a tier. */
    function TierData(t: Tier): seq<Feature>
      reads this
    {
      match t
      case Unset => []
      case County => countyData
      case Tract => tractData
      case Block => blockData
    }

    /** `poverty_map.getZoom()`. */
    function Zoom(): int
      requires layer.mapWidget != null
      reads this, layer, layer.mapWidget
    {
      layer.mapWidget.viewport.zoom
    }

    /** Page start: `L.vega(vega_spec, {delayRepaint: true})` normalises the
        spec, `addTo(poverty_map)` mounts the view Vega built (`parsed`, null
        when parsing failed) on the map `m`; the tier state is `''` and the
        three collections are empty. A spec that does not normalise makes
        `L.vega` throw, and the rest of the script never runs. */
    constructor (m: LeafletMap, spec: Spec, parsed: View?)
      requires Normalized(spec.Snapshot()).outcome == Pass
      requires parsed != null ==> parsed.Valid() && "layer" in parsed.signals
      modifies spec, m`handlers, parsed
      ensures Valid()
      ensures layer.delayRepaint && layer.disabled == 0 && layer.mapWidget == m && layer.view == parsed
      ensures layer.graphSpec == spec && spec.Snapshot() == Normalized(old(spec.Snapshot())).spec
      ensures layer.warnings == Normalized(old(spec.Snapshot())).warnings && !layer.ignoreSignals
      ensures m.viewport == old(m.viewport)
      ensures parsed == null ==> m.handlers == old(m.handlers)
      ensures parsed != null ==>
                && parsed.listeners == old(parsed.listeners) + ListenedSignals
                && m.handlers == old(m.handlers) + ["moveend", "zoomend"]
                && parsed.signals == Synced(old(parsed.signals), m.viewport)
                && parsed.log == old(parsed.log) + SyncWrites(old(parsed.signals), m.viewport) + [RanAsync]
                && parsed.geoUnits == old(parsed.geoUnits)
      ensures current == Unset && countyData == [] && tractData == [] && blockData == []
      ensures picker == Picker("", "")
    {
      var l := new VegaLayer(true);
      var normalized := l.Initialize(spec);
      var added := l.OnAdd(m, parsed);
      layer := l;
      current := Unset;
      countyData, tractData, blockData := [], [], [];
      picker := Picker("", "");
    }

    /** The `runAfter` callback: `populateLayers(view)` on the current
        `geo_units` rows and `layer` signal. */
    method RefreshPicker()
      requires Valid() && layer.view != null
      modifies this`picker
      ensures layer.view.geoUnits == [] ==> picker == old(picker)
      ensures layer.view.geoUnits != [] ==>
                picker == Populate(layer.view.geoUnits, layer.view.signals["layer"]).value
    {
      var v := layer.view;
      picker := Refreshed(picker, Populate(v.geoUnits, v.signals["layer"]));
    }

    /** `updateViewData(rows)`: replace `geo_units` wholesale, run, refresh the picker. */
    method UpdateViewData(rows: seq<Feature>)
      requires Valid() && layer.view != null
      modifies layer.view`geoUnits, layer.view`log, this`picker
      ensures Valid()
      ensures layer.view.geoUnits == rows
      ensures layer.view.log == old(layer.view.log) + [Replaced(rows), Ran]
      ensures rows == [] ==> picker == old(picker)
      ensures rows != [] ==> picker == Populate(rows, layer.view.signals["layer"]).value
    {
      var v := layer.view;
      v.Change(rows);
      v.Run();
      RefreshPicker();
    }

    /** The county load: keep the rows, insert them into `geo_units`, run,
        refresh the picker and mark the county tier shown, whatever the tier was. */
    method OnCountyLoaded(rows: seq<Feature>)
      requires Valid() && layer.view != null
      modifies this`countyData, this`current, this`picker, layer.view`geoUnits, layer.view`log
      ensures Valid()
      ensures countyData == rows && current == County
      ensures tractData == old(tractData) && blockData == old(blockData)
      ensures layer.view.geoUnits == old(layer.view.geoUnits) + rows
      ensures layer.view.log == old(layer.view.log) + [Inserted(rows), Ran]
      ensures picker == Refreshed(old(picker), Populate(layer.view.geoUnits, layer.view.signals["layer"]))
    {
      countyData := rows;
      var v := layer.view;
      v.Insert(rows);
      v.Run();
      RefreshPicker();
      current := County;
    }

    /** The tract load only keeps the rows. */
    method OnTractLoaded(rows: seq<Feature>)
      modifies this`tractData
      ensures tractData == rows
    {
      tractData := rows;
    }

    /** The block load only keeps the rows. */
    method OnBlockLoaded(rows: seq<Feature>)
      modifies this`blockData
      ensures blockData == rows
    {
      blockData := rows;
    }

    /** The `zoomend` handler. When the tier already matches the zoom nothing
        happens; otherwise the dataset is replaced once, by the target tier's
        collection as loaded so far (possibly still empty), and the target
        becomes the current tier. */
    method OnZoomEnd()
      requires Valid() && layer.view != null
      modifies this`current, this`picker, layer.view`geoUnits, layer.view`log
      ensures Valid()
      ensures current == TargetTier(Zoom())
      ensures ZoomEnd(old(current), Zoom()) == None ==>
                && current == old(current) && picker == old(picker)
                && layer.view.geoUnits == old(layer.view.geoUnits) && layer.view.log == old(layer.view.log)
      ensures ZoomEnd(old(current), Zoom()).Some? ==>
                var rows := TierData(current);
                && layer.view.geoUnits == rows
                && layer.view.log == old(layer.view.log) + [Replaced(rows), Ran]
                && picker == Refreshed(old(picker), Populate(rows, layer.view.signals["layer"]))
    {
      var zoom := layer.mapWidget.viewport.zoom;
      if zoom <= 8 && current != County {
        UpdateViewData(countyData);
        current := County;
      } else if zoom > 8 && zoom <= 11 && current != Tract {
        UpdateViewData(tractData);
        current := Tract;
      } else if zoom > 11 && current != Block {
        UpdateViewData(blockData);
        current := Block;
      }
    }

    /** `changeLayer(e)` on a click inside the picker, given `e.target.value`
        and whether the target is the picker container itself. A truthy value
        from a child selects that layer and runs the view; the event's
        propagation is stopped in every case. */
    method ChangeLayer(targetValue: Value, targetIsCurrentTarget: bool) returns (stopPropagation: bool)
      requires Valid() && layer.view != null
      modifies layer.view`signals, layer.view`log
      ensures Valid() && stopPropagation
      ensures Truthy(targetValue) && !targetIsCurrentTarget ==>
                && layer.view.signals == old(layer.view.signals)["layer" := targetValue]
                && layer.view.log == old(layer.view.log) + [Wrote("layer", targetValue), Ran]
      ensures !(Truthy(targetValue) && !targetIsCurrentTarget) ==>
                layer.view.signals == old(layer.view.signals) && layer.view.log == old(layer.view.log)
    {
      var v := layer.view;
      if Truthy(targetValue) && !targetIsCurrentTarget {
        v.SetSignal("layer", targetValue);
        v.Run();
      }
      stopPropagation := true;
    }
  }
}

=== FILE: engine.dfy ===
/** The two collaborators of the adapter, reduced to the state the repository's
    code reads and writes: the Leaflet map widget and the Vega view. Parsing,
    rendering, DOM work and event dispatch are not modelled. */
module Engine {
  import opened JsValues
  import opened Sequences

  /** The map viewport: centre, zoom level and pixel size (`size.x`, `size.y`). */
  datatype Viewport = Viewport(lat: int, lng: int, zoom: int, sx: int, sy: int)

  /** The Leaflet map: its viewport and the event names handlers were registered for. */
  class LeafletMap {
    var viewport: Viewport
    var handlers: seq<string>

    constructor (v: Viewport)
      ensures viewport == v && handlers == []
    {
      viewport := v;
      handlers := [];
    }

    /** `map.setView(center, zoom)`: the pixel size is left as it was. */
    method SetView(lat: int, lng: int, zoom: int)
      modifies this`viewport
      ensures viewport == Viewport(lat, lng, zoom, old(viewport).sx, old(viewport).sy)
    {
      viewport := Viewport(lat, lng, zoom, viewport.sx, viewport.sy);
    }

    /** `map.on(event, handler)`: handlers accumulate, nothing is ever removed. */
    method On(event: string)
      modifies this`handlers
      ensures handlers == old(handlers) + [event]
    {
      handlers := handlers + [event];
    }
  }

  /** The own property names of an object, as `Object.keys` lists them: no name twice. */
  type PropertyKeys = s: seq<string> | Distinct(s) witness []

  /** A geographic feature: its geometry (opaque here) and its property keys in
      `Object.keys` order. Property values are read only by Vega. */
  datatype Feature = Feature(geometry: nat, propertyKeys: PropertyKeys)

  /** One call made on the Vega view, in the order it was made. */
  datatype ViewOp =
    | Wrote(name: string, value: Value)  // view.signal(name, value)
    | RanAsync                           // view.runAsync()
    | Ran                                // view.run()
    | Inserted(rows: seq<Feature>)       // view.insert('geo_units', rows)
    | Replaced(rows: seq<Feature>)       // view.change('geo_units', changeset().remove(() => 1).insert(rows))
    | Finalized                          // view.finalize()

  /** The five signals the adapter keeps equal to the map viewport. */
  const TrackedSignals: set<string> := {"width", "height", "latitude", "longitude", "zoom"}

  /** The Vega view: signal values, the `geo_units` dataset, the signals that
      have listeners, and the log of calls made on it. */
  class View {
    var signals: map<string, Value>
    var geoUnits: seq<Feature>
    var listeners: seq<string>
    var log: seq<ViewOp>

    /** Every view built from a normalised spec declares the tracked signals:
        `width` and `height` are Vega built-ins, the other three were injected. */
    ghost predicate Valid()
      reads this
    {
      TrackedSignals <= signals.Keys
    }

    constructor (initial: map<string, Value>)
      requires TrackedSignals <= initial.Keys
      ensures Valid()
      ensures signals == initial && geoUnits == [] && listeners == [] && log == []
    {
      signals := initial;
      geoUnits := [];
      listeners := [];
      log := [];
    }

    /** `view.signal(name, value)`; Vega refuses names the spec does not declare. */
    method SetSignal(name: string, value: Value)
      requires Valid() && name in signals
      modifies this`signals, this`log
      ensures Valid()
      ensures signals == old(signals)[name := value]
      ensures log == old(log) + [Wrote(name, value)]
    {
      signals := signals[name := value];
      log := log + [Wrote(name, value)];
    }

    method RunAsync()
      modifies this`log
      ensures log == old(log) + [RanAsync]
    {
      log := log + [RanAsync];
    }

    method Run()
      modifies this`log
      ensures log == old(log) + [Ran]
    {
      log := log + [Ran];
    }

    /** `view.insert('geo_units', rows)`: rows are appended to what is there. */
    method Insert(rows: seq<Feature>)
      modifies this`geoUnits, this`log
      ensures geoUnits == old(geoUnits) + rows
      ensures log == old(log) + [Inserted(rows)]
    {
      geoUnits := geoUnits + rows;
      log := log + [Inserted(rows)];
    }

    /** A changeset removing every row and inserting `rows`: a wholesale replace. */
    method Change(rows: seq<Feature>)
      modifies this`geoUnits, this`log
      ensures geoUnits == rows
      ensures log == old(log) + [Replaced(rows)]
    {
      geoUnits := rows;
      log := log + [Replaced(rows)];
    }

    method AddSignalListener(name: string)
      modifies this`listeners
      ensures listeners == old(listeners) + [name]
    {
      listeners := listeners + [name];
    }

    method Finalize()
      modifies this`log
      ensures log == old(log) + [Finalized]
    {
      log := log + [Finalized];
    }
  }
}

=== FILE: graph_spec.dfy ===
/** Spec normalisation done by the adapter before Vega parses the spec
    (`_updateGraphSpec` in app/utils/VegaLayer.js): the map-driven signals and
    a mercator projection are injected when missing, and padding and autosize
    are forced. */
module GraphSpec {
  import opened JsValues
  import opened Sequences

  /** What an entry of `signals` or `projections` holds besides its name. */
  datatype EntryBody =
    | Authored(id: nat)  // written by the spec's author; never looked into
    | NameOnly           // `{name: s}`, as injected for a missing map signal
    | Projection(projType: string, scale: string, rotateLongitude: string,
                 centerLatitude: string, translateX: string, translateY: string)

  /** An entry of a spec section. A `name` of "" stands for a missing or falsy name. */
  datatype Entry = Entry(name: string, body: EntryBody)

  /** A top-level spec property that should hold an array of entries. */
  datatype Section = Absent | Entries(entries: seq<Entry>) | NotAnArray(v: Value)

  datatype SectionName = Signals | Projections
  datatype FieldName = Padding | Autosize

  /** The parts of a spec the normalisation reads or writes. */
  datatype SpecValue = SpecValue(signals: Section, projections: Section, padding: Value, autosize: Value)

  /** The warning `Overriding <key> ... <value>` raised when a field is forced. */
  datatype Warning = Overriding(key: FieldName, value: Value)

  datatype Normalization = Normalization(spec: SpecValue, warnings: seq<Warning>, outcome: Outcome)

  const MapSignals: seq<string> := ["zoom", "latitude", "longitude"]
  const ProjectionNames: seq<string> := ["projection"]
  /** The same message is thrown for a malformed `projections` section. */
  const ArrayError: string := "signals must be an array"

  /** The mercator projection driven by the map signals: 256-pixel tiles at zoom 0. */
  const Mercator: EntryBody :=
    Projection("mercator", "256*pow(2,zoom)/2/PI", "-longitude", "latitude", "width/2", "height/2")

  /** The entry pushed for a missing `name` in the given section. */
  function NewEntry(section: SectionName, name: string): Entry {
    match section
    case Signals => Entry(name, NameOnly)
    case Projections => Entry(name, Mercator)
  }

  function Declarations(section: SectionName, names: seq<string>): (r: seq<Entry>)
    ensures |r| == |names|
    ensures forall i :: 0 <= i < |names| ==> r[i] == NewEntry(section, names[i])
  {
    seq(|names|, i requires 0 <= i < |names| => NewEntry(section, names[i]))
  }

  /** The truthy names declared by a section's entries. */
  function DeclaredNames(es: seq<Entry>): set<string> {
    set e | e in es && e.name != "" :: e.name
  }

  /** `names` without the members of `gone`, in their original order. */
  function Keep(names: seq<string>, gone: set<string>): (r: seq<string>)
    ensures forall n :: n in r <==> n in names && n !in gone
    ensures Distinct(names) ==> Distinct(r)
  {
    if names == [] then []
    else (if names[0] in gone then [] else [names[0]]) + Keep(names[1..], gone)
  }

  /** The names of `names` that no entry of `es` declares. */
  function Undeclared(names: seq<string>, es: seq<Entry>): seq<string> {
    Keep(names, DeclaredNames(es))
  }

  /** A section with the missing `names` appended, or None when it is not an array. */
  function AddMissing(sec: Section, section: SectionName, names: seq<string>): Option<seq<Entry>> {
    match sec
    case Absent => Some(Declarations(section, names))
    case Entries(es) => Some(es + Declarations(section, Undeclared(names, es)))
    case NotAnArray(_) => None
  }

  /** The warning for forcing `key` to `value` when it held a truthy, different value. */
  function OverrideWarnings(key: FieldName, prior: Value, value: Value): seq<Warning> {
    if Truthy(prior) && prior != value then [Overriding(key, value)] else []
  }

  /** The whole of `_updateGraphSpec` as a function of the spec it is given. The
      signals are injected before `projections` is inspected, so a malformed
      `projections` section leaves the signals already extended. */
  function Normalized(s: SpecValue): (r: Normalization)
    ensures r.outcome == Pass <==> !s.signals.NotAnArray? && !s.projections.NotAnArray?
    ensures r.outcome != Pass ==> r.outcome == Fail(ArrayError) && r.warnings == []
    ensures r.outcome != Pass ==> r.spec.(signals := s.signals) == s
    ensures s.signals.NotAnArray? ==> r.spec == s
    ensures r.outcome == Pass ==> r.spec.padding == Num(0) && r.spec.autosize == Str("none")
  {
    match AddMissing(s.signals, Signals, MapSignals)
    case None => Normalization(s, [], Fail(ArrayError))
    case Some(sigs) =>
      var s1 := s.(signals := Entries(sigs));
      match AddMissing(s.projections, Projections, ProjectionNames)
      case None => Normalization(s1, [], Fail(ArrayError))
      case Some(prjs) =>
        Normalization(
          s1.(projections := Entries(prjs), padding := Num(0), autosize := Str("none")),
          OverrideWarnings(Padding, s.padding, Num(0)) + OverrideWarnings(Autosize, s.autosize, Str("none")),
          Pass)
  }

  function SectionOf(s: SpecValue, section: SectionName): Section {
    match section
    case Signals => s.signals
    case Projections => s.projections
  }

  function WithSection(s: SpecValue, section: SectionName, sec: Section): SpecValue {
    match section
    case Signals => s.(signals := sec)
    case Projections => s.(projections := sec)
  }

  function WithField(s: SpecValue, key: FieldName, v: Value): SpecValue {
    match key
    case Padding => s.(padding := v)
    case Autosize => s.(autosize := v)
  }

  function FieldOf(s: SpecValue, key: FieldName): Value {
    match key
    case Padding => s.padding
    case Autosize => s.autosize
  }

  // ---------------------------------------------------------------------------
  // The spec object, edited in place

  /** A Vega spec object as the adapter sees it; other properties are untouched
      by the normalisation and are not modelled. */
  class Spec {
    var signals: Section
    var projections: Section
    var padding: Value
    var autosize: Value

    constructor (s: SpecValue)
      ensures Snapshot() == s
    {
      signals, projections, padding, autosize := s.signals, s.projections, s.padding, s.autosize;
    }

    function Snapshot(): SpecValue
      reads this
    {
      SpecValue(signals, projections, padding, autosize)
    }

    /** `spec[section] = sec` */
    method SetSection(section: SectionName, sec: Section)
      modifies this
      ensures Snapshot() == WithSection(old(Snapshot()), section, sec)
    {
      match section
      case Signals => signals := sec;
      case Projections => projections := sec;
    }

    /** `spec[section].push(e)` */
    method Push(section: SectionName, e: Entry)
      requires SectionOf(Snapshot(), section).Entries?
      modifies this
      ensures Snapshot() == WithSection(old(Snapshot()), section,
                                        Entries(SectionOf(old(Snapshot()), section).entries + [e]))
    {
      match section
      case Signals => signals := Entries(signals.entries + [e]);
      case Projections => projections := Entries(projections.entries + [e]);
    }

    /** `spec[key] = v` */
    method SetField(key: FieldName, v: Value)
      modifies this
      ensures Snapshot() == WithField(old(Snapshot()), key, v)
    {
      match key
      case Padding => padding := v;
      case Autosize => autosize := v;
    }
  }

  /** The loop of `findUndefined` over a section that is an array: every entry
      with a truthy name deletes that name from the set of wanted names. */
  method DeleteDeclaredNames(entries: seq<Entry>, names: seq<string>) returns (rest: seq<string>)
    requires Distinct(names)
    ensures rest == Undeclared(names, entries)
    ensures forall n :: n in rest <==> n in names && n !in DeclaredNames(entries)
  {
    rest := names;
    KeepNothing(names);
    assert DeclaredNames(entries[..0]) == {} by { assert entries[..0] == []; }
    for i := 0 to |entries|
      invariant rest == Keep(names, DeclaredNames(entries[..i]))
    {
      var obj := entries[i];
      assert entries[..i + 1] == entries[..i] + [obj];
      if obj.name != "" {
        KeepTwice(names, DeclaredNames(entries[..i]), obj.name);
        rest := Keep(rest, {obj.name});
        assert DeclaredNames(entries[..i + 1]) == DeclaredNames(entries[..i]) + {obj.name};
      } else {
        assert DeclaredNames(entries[..i + 1]) == DeclaredNames(entries[..i]);
      }
    }
    assert entries[..|entries|] == entries;
  }

  lemma {:induction false} KeepNothing(names: seq<string>)
    ensures Keep(names, {}) == names
  {
    if names != [] {
      KeepNothing(names[1..]);
      assert names == [names[0]] + names[1..];
    }
  }

  lemma KeepCons(h: string, t: seq<string>, gone: set<string>)
    ensures Keep([h] + t, gone) == (if h in gone then [] else [h]) + Keep(t, gone)
  {
    assert ([h] + t)[0] == h && ([h] + t)[1..] == t;
  }

  lemma {:induction false} KeepTwice(names: seq<string>, gone: set<string>, x: string)
    ensures Keep(Keep(names, gone), {x}) == Keep(names, gone + {x})
  {
    if names != [] {
      var h, t := names[0], names[1..];
      assert names == [h] + t;
      KeepTwice(t, gone, x);
      KeepCons(h, t, gone);
      KeepCons(h, t, gone + {x});
      if h in gone {
        assert Keep(names, gone) == Keep(t, gone);
        assert Keep(names, gone + {x}) == Keep(t, gone + {x});
      } else {
        assert Keep(names, gone) == [h] + Keep(t, gone);
        KeepCons(h, Keep(t, gone), {x});
        if h == x {
          assert Keep(names, gone + {x}) == Keep(t, gone + {x});
        } else {
          assert Keep(names, gone + {x}) == [h] + Keep(t, gone + {x});
        }
      }
    }
  }

  /** `findUndefined(section, names)`: creates an absent section as `[]` and
      returns every name; throws (None) on a section that is not an array. */
  method FindUndefined(spec: Spec, section: SectionName, names: seq<string>) returns (r: Option<seq<string>>)
    requires Distinct(names)
    modifies spec
    ensures match SectionOf(old(spec.Snapshot()), section)
            case Absent =>
              r == Some(names) && spec.Snapshot() == WithSection(old(spec.Snapshot()), section, Entries([]))
            case Entries(es) =>
              r == Some(Undeclared(names, es)) && spec.Snapshot() == old(spec.Snapshot())
            case NotAnArray(_) =>
              r == None && spec.Snapshot() == old(spec.Snapshot())
  {
    match SectionOf(spec.Snapshot(), section)
    case Absent =>
      spec.SetSection(section, Entries([]));
      r := Some(names);
    case Entries(es) =>
      var rest := DeleteDeclaredNames(es, names);
      r := Some(rest);
    case NotAnArray(_) =>
      r := None;
  }

  /** `for (let x of names) spec[section].push(NewEntry(x))` */
  method PushDeclarations(spec: Spec, section: SectionName, names: seq<string>)
    requires SectionOf(spec.Snapshot(), section).Entries?
    modifies spec
    ensures spec.Snapshot() == WithSection(old(spec.Snapshot()), section,
              Entries(SectionOf(old(spec.Snapshot()), section).entries + Declarations(section, names)))
  {
    ghost var s0 := spec.Snapshot();
    ghost var es := SectionOf(s0, section).entries;
    for i := 0 to |names|
      invariant spec.Snapshot() == WithSection(s0, section, Entries(es + Declarations(section, names[..i])))
    {
      assert SectionOf(spec.Snapshot(), section) == Entries(es + Declarations(section, names[..i]));
      spec.Push(section, NewEntry(section, names[i]));
      assert (es + Declarations(section, names[..i])) + [NewEntry(section, names[i])]
          == es + (Declarations(section, names[..i]) + [NewEntry(section, names[i])]);
      assert Declarations(section, names[..i + 1]) == Declarations(section, names[..i]) + [NewEntry(section, names[i])];
    }
    assert names[..|names|] == names;
  }

  /** `overrideField(key, value)`: returns the warning it emits, if any. */
  method OverrideField(spec: Spec, key: FieldName, value: Value) returns (w: seq<Warning>)
    modifies spec
    ensures spec.Snapshot() == WithField(old(spec.Snapshot()), key, value)
    ensures w == OverrideWarnings(key, FieldOf(old(spec.Snapshot()), key), value)
  {
    var prior := FieldOf(spec.Snapshot(), key);
    if Truthy(prior) && prior != value {
      w := [Overriding(key, value)];
    } else {
      w := [];
    }
    spec.SetField(key, value);
  }

  /** `_updateGraphSpec(spec)`: edits `spec` in place and returns the warnings it
      emitted; a thrown error is the outcome `Fail`. */
  method UpdateGraphSpec(spec: Spec) returns (warnings: seq<Warning>, outcome: Outcome)
    modifies spec
    ensures Normalized(old(spec.Snapshot())) == Normalization(spec.Snapshot(), warnings, outcome)
  {
    ghost var s0 := spec.Snapshot();
    var sigs := FindUndefined(spec, Signals, MapSignals);
    if sigs.None? {
      return [], Fail(ArrayError);
    }
    PushDeclarations(spec, Signals, sigs.value);
    ghost var s1 := spec.Snapshot();
    assert s1 == s0.(signals := Entries(AddMissing(s0.signals, Signals, MapSignals).value)) by {
      if s0.signals.Absent? {
        assert [] + Declarations(Signals, MapSignals) == Declarations(Signals, MapSignals);
      }
    }
    var prjs := FindUndefined(spec, Projections, ProjectionNames);
    if prjs.None? {
      return [], Fail(ArrayError);
    }
    PushDeclarations(spec, Projections, prjs.value);
    assert spec.Snapshot() == s1.(projections := Entries(AddMissing(s0.projections, Projections, ProjectionNames).value)) by {
      if s0.projections.Absent? {
        assert [] + Declarations(Projections, ProjectionNames) == Declarations(Projections, ProjectionNames);
      }
    }
    var w1 := OverrideField(spec, Padding, Num(0));
    var w2 := OverrideField(spec, Autosize, Str("none"));
    warnings, outcome := w1 + w2, Pass;
  }

  // ---------------------------------------------------------------------------
  // What the normalisation guarantees

  /** The entries of `es` named `n`, in order. */
  function Named(es: seq<Entry>, n: string): seq<Entry> {
    if es == [] then []
    else (if es[0].name == n then [es[0]] else []) + Named(es[1..], n)
  }

  lemma {:induction false} NamedAppend(a: seq<Entry>, b: seq<Entry>, n: string)
    ensures Named(a + b, n) == Named(a, n) + Named(b, n)
  {
    if a != [] {
      assert (a + b)[0] == a[0] && (a + b)[1..] == a[1..] + b;
      NamedAppend(a[1..], b, n);
    } else {
      assert a + b == b;
    }
  }

  lemma {:induction false} NamedDeclarations(section: SectionName, names: seq<string>, n: string)
    requires Distinct(names)
    ensures Named(Declarations(section, names), n) == if n in names then [NewEntry(section, n)] else []
  {
    var d := Declarations(section, names);
    if names != [] {
      assert d[1..] == Declarations(section, names[1..]);
      assert Distinct(names[1..]);
      NamedDeclarations(section, names[1..], n);
      assert n in names <==> n == names[0] || n in names[1..] by {
        assert names == [names[0]] + names[1..];
      }
    }
  }

  lemma DeclaredNamesAppend(a: seq<Entry>, b: seq<Entry>)
    ensures DeclaredNames(a + b) == DeclaredNames(a) + DeclaredNames(b)
  {
    forall e | e in a + b ensures e in a || e in b { }
  }

  lemma DeclaredNamesOfDeclarations(section: SectionName, names: seq<string>)
    requires forall n :: n in names ==> n != ""
    ensures DeclaredNames(Declarations(section, names)) == set n | n in names
  {
    var d := Declarations(section, names);
    forall n | n in names ensures n in DeclaredNames(d) {
      var i :| 0 <= i < |names| && names[i] == n;
      assert d[i].name == n && d[i] in d;
    }
  }

  lemma KeepAllGone(names: seq<string>, gone: set<string>)
    requires forall n :: n in names ==> n in gone
    ensures Keep(names, gone) == []
  {
  }

  /** Entries named `n` after adding the missing `names`: the existing ones, and
      one new entry exactly when `n` was wanted and not yet declared. */
  lemma AddMissingNamed(sec: Section, section: SectionName, names: seq<string>, n: string)
    requires !sec.NotAnArray? && Distinct(names) && n != ""
    ensures var es := if sec.Entries? then sec.entries else [];
            Named(AddMissing(sec, section, names).value, n)
              == Named(es, n) + (if n in names && n !in DeclaredNames(es) then [NewEntry(section, n)] else [])
  {
    match sec
    case Absent =>
      NamedDeclarations(section, names, n);
    case Entries(es) =>
      var missing := Undeclared(names, es);
      NamedAppend(es, Declarations(section, missing), n);
      NamedDeclarations(section, missing, n);
  }

  /** After adding the missing `names`, every one of them is declared, and the
      original entries are still there, first and unchanged. */
  lemma AddMissingCovers(sec: Section, section: SectionName, names: seq<string>)
    requires !sec.NotAnArray? && forall n :: n in names ==> n != ""
    ensures var es := if sec.Entries? then sec.entries else [];
            var r := AddMissing(sec, section, names).value;
            && |es| <= |r| && r[..|es|] == es
            && forall n :: n in names ==> n in DeclaredNames(r)
  {
    match sec
    case Absent =>
      DeclaredNamesOfDeclarations(section, names);
    case Entries(es) =>
      var missing := Undeclared(names, es);
      DeclaredNamesAppend(es, Declarations(section, missing));
      DeclaredNamesOfDeclarations(section, missing);
      assert (es + Declarations(section, missing))[..|es|] == es;
  }

  /** A successful normalisation declares `zoom`, `latitude`, `longitude` and a
      `projection`, and keeps the author's entries first and unchanged. */
  lemma NormalizedDeclaresMapSignals(s: SpecValue)
    requires Normalized(s).outcome == Pass
    ensures var r := Normalized(s).spec;
            && r.signals.Entries? && r.projections.Entries?
            && (forall n :: n in MapSignals ==> n in DeclaredNames(r.signals.entries))
            && "projection" in DeclaredNames(r.projections.entries)
            && (s.signals.Entries? ==>
                  |s.signals.entries| <= |r.signals.entries| &&
                  r.signals.entries[..|s.signals.entries|] == s.signals.entries)
            && (s.projections.Entries? ==>
                  |s.projections.entries| <= |r.projections.entries| &&
                  r.projections.entries[..|s.projections.entries|] == s.projections.entries)
  {
    AddMissingCovers(s.signals, Signals, MapSignals);
    AddMissingCovers(s.projections, Projections, ProjectionNames);
  }

  /** A declaration the author wrote is neither altered nor duplicated; a map
      signal that was missing gains exactly one `{name}` entry. */
  lemma NormalizedSignalsNamed(s: SpecValue, n: string)
    requires Normalized(s).outcome == Pass && n != ""
    ensures var es := if s.signals.Entries? then s.signals.entries else [];
            Named(Normalized(s).spec.signals.entries, n)
              == Named(es, n) + (if n in MapSignals && n !in DeclaredNames(es) then [Entry(n, NameOnly)] else [])
  {
    AddMissingNamed(s.signals, Signals, MapSignals, n);
  }

  /** The same for projections: one mercator `projection` is added only when no
      entry is named `projection`. */
  lemma NormalizedProjectionsNamed(s: SpecValue, n: string)
    requires Normalized(s).outcome == Pass && n != ""
    ensures var es := if s.projections.Entries? then s.projections.entries else [];
            Named(Normalized(s).spec.projections.entries, n)
              == Named(es, n) + (if n == "projection" && n !in DeclaredNames(es) then [Entry(n, Mercator)] else [])
  {
    AddMissingNamed(s.projections, Projections, ProjectionNames, n);
  }

  /** Without a `signals` section the result holds exactly the three map signals. */
  lemma NormalizedFromAbsentSignals(s: SpecValue)
    requires s.signals.Absent? && !s.projections.NotAnArray?
    ensures Normalized(s).spec.signals
         == Entries([Entry("zoom", NameOnly), Entry("latitude", NameOnly), Entry("longitude", NameOnly)])
  {
    var d := Declarations(Signals, MapSignals);
    assert d == [d[0], d[1], d[2]];
  }

  /** Normalising a normalised spec changes nothing and warns about nothing. */
  lemma NormalizedIdempotent(s: SpecValue)
    requires Normalized(s).outcome == Pass
    ensures var r := Normalized(s).spec;
            Normalized(r) == Normalization(r, [], Pass)
  {
    var r := Normalized(s).spec;
    NormalizedDeclaresMapSignals(s);
    KeepAllGone(MapSignals, DeclaredNames(r.signals.entries));
    KeepAllGone(ProjectionNames, DeclaredNames(r.projections.entries));
    assert r.signals.entries + Declarations(Signals, []) == r.signals.entries;
    assert r.projections.entries + Declarations(Projections, []) == r.projections.entries;
  }

  /** A warning is raised for a field exactly when it held a truthy, different value. */
  lemma NormalizedWarnings(s: SpecValue)
    requires Normalized(s).outcome == Pass
    ensures var w := Normalized(s).warnings;
            && (Overriding(Padding, Num(0)) in w <==> Truthy(s.padding) && s.padding != Num(0))
            && (Overriding(Autosize, Str("none")) in w <==> Truthy(s.autosize) && s.autosize != Str("none"))
            && |w| <= 2
  {
  }

  /** The county spec shipped with the application, reduced to the parts the
      normalisation reads. */
  function CountySpec(): SpecValue {
    SpecValue(
      Entries([Entry("layer", Authored(0)), Entry("zoom", NameOnly), Entry("latitude", NameOnly),
               Entry("longitude", NameOnly), Entry("northEast_lng", Authored(1)),
               Entry("northEast_lat", Authored(2)), Entry("southWest_lng", Authored(3)),
               Entry("southWest_lat", Authored(4))]),
      Entries([Entry("projection", Mercator)]),
      Undefined,
      Str("none"))
  }

  lemma CountySignalsComplete()
    ensures AddMissing(CountySpec().signals, Signals, MapSignals) == Some(CountySpec().signals.entries)
  {
    var es := CountySpec().signals.entries;
    assert es[1] in es && es[2] in es && es[3] in es;
    assert forall n :: n in MapSignals ==> n in DeclaredNames(es);
    KeepAllGone(MapSignals, DeclaredNames(es));
    assert es + Declarations(Signals, []) == es;
  }

  lemma CountyProjectionsComplete()
    ensures AddMissing(CountySpec().projections, Projections, ProjectionNames) == Some(CountySpec().projections.entries)
  {
    var ps := CountySpec().projections.entries;
    assert ps[0] in ps;
    KeepAllGone(ProjectionNames, DeclaredNames(ps));
    assert ps + Declarations(Projections, []) == ps;
  }

  /** It already declares everything: only `padding` is set, silently. */
  lemma CountySpecNormalization()
    ensures Normalized(CountySpec()) == Normalization(CountySpec().(padding := Num(0)), [], Pass)
  {
    CountySignalsComplete();
    CountyProjectionsComplete();
  }
}

=== FILE: js_values.dfy ===
/** The slice of JavaScript's value model that the map front-end depends on:
    strict (in)equality `===`/`!==`, truthiness, and thrown errors as outcomes. */
module JsValues {

  /** A JavaScript value as far as this code inspects it. Numbers are integers
      (fractional coordinates are abstracted away); an object or array is known
      only by its identity, so `===` on objects is equality of `id`. */
  datatype Value =
    | Undefined
    | Null
    | Bool(b: bool)
    | Num(n: int)
    | Str(s: string)
    | Obj(id: nat)

  /** JavaScript truthiness: `undefined`, `null`, `false`, `0` and `""` are falsy. */
  predicate Truthy(v: Value) {
    match v
    case Undefined => false
    case Null => false
    case Bool(b) => b
    case Num(n) => n != 0
    case Str(s) => s != ""
    case Obj(_) => true
  }

  datatype Option<+T> = None | Some(value: T)

  /** Whether a step completed normally or threw an `Error` with a message. */
  datatype Outcome = Pass | Fail(error: string)
}

/** Facts about sequences shared by the modules below. */
module Sequences {

  /** No element occurs twice. */
  predicate Distinct<T(==)>(s: seq<T>) {
    forall i, j :: 0 <= i < j < |s| ==> s[i] != s[j]
  }

  /** How many times `x` occurs in `s`. */
  function Occurrences<T(==)>(s: seq<T>, x: T): nat {
    if s == [] then 0 else (if s[0] == x then 1 else 0) + Occurrences(s[1..], x)
  }

  lemma {:induction false} DistinctOccursAtMostOnce<T>(s: seq<T>, x: T)
    requires Distinct(s)
    ensures Occurrences(s, x) <= 1
    ensures Occurrences(s, x) == 1 <==> x in s
  {
    if s != [] {
      assert Distinct(s[1..]);
      DistinctOccursAtMostOnce(s[1..], x);
      if s[0] == x {
        assert x !in s[1..] by {
          forall j | 0 <= j < |s[1..]| ensures s[1..][j] != x {
            assert s[1..][j] == s[j + 1];
          }
        }
      }
      assert x in s <==> s[0] == x || x in s[1..] by {
        assert s == [s[0]] + s[1..];
      }
    }
  }

  lemma DistinctAppend<T>(a: seq<T>, b: seq<T>)
    requires Distinct(a) && Distinct(b)
    requires forall x :: x in a ==> x !in b
    ensures Distinct(a + b)
  {
    forall i, j | 0 <= i < j < |a + b| ensures (a + b)[i] != (a + b)[j] {
      if j < |a| {
      } else if i < |a| {
        assert (a + b)[i] in a && (a + b)[j] == b[j - |a|];
      } else {
        assert (a + b)[i] == b[i - |a|] && (a + b)[j] == b[j - |a|];
      }
    }
  }
}

=== FILE: populate_layers.dfy ===
/** The layer picker (app/utils/populateLayers.js): the first feature's property
    keys are split into a poverty group and a population group, and each group
    becomes a run of radio-button labels with the current layer pre-checked. The
    two `innerHTML` writes are returned as strings. */
module PopulateLayers {
  import opened JsValues
  import opened Sequences
  import opened Engine

  /** `s.startsWith(prefix)` */
  predicate StartsWith(s: string, prefix: string) {
    |prefix| <= |s| && s[..|prefix|] == prefix
  }

  predicate IsPovertyKey(k: string) {
    StartsWith(k, "poverty_")
  }

  predicate IsPopulationKey(k: string) {
    k == "total" || StartsWith(k, "non_") || StartsWith(k, "hispanic")
  }

  /** `keys.filter(p)` */
  function Filter(keys: seq<string>, p: string -> bool): (r: seq<string>)
    ensures forall k :: k in r <==> k in keys && p(k)
    ensures |r| <= |keys|
    ensures Distinct(keys) ==> Distinct(r)
  {
    if keys == [] then []
    else (if p(keys[0]) then [keys[0]] else []) + Filter(keys[1..], p)
  }

  /** `poverty_layers`: the keys starting with `poverty_`, in key order. */
  function PovertyLayers(keys: seq<string>): (r: seq<string>)
    ensures forall k :: k in r <==> k in keys && StartsWith(k, "poverty_")
    ensures Distinct(keys) ==> Distinct(r)
  {
    Filter(keys, IsPovertyKey)
  }

  /** `population_layers`: `total` and the keys starting with `non_` or
      `hispanic`, in key order. */
  function PopulationLayers(keys: seq<string>): (r: seq<string>)
    ensures forall k :: k in r <==> k in keys && (k == "total" || StartsWith(k, "non_") || StartsWith(k, "hispanic"))
    ensures Distinct(keys) ==> Distinct(r)
  {
    Filter(keys, IsPopulationKey)
  }

  /** Filtering keeps the original order: it distributes over concatenation. */
  lemma {:induction false} FilterAppend(a: seq<string>, b: seq<string>, p: string -> bool)
    ensures Filter(a + b, p) == Filter(a, p) + Filter(b, p)
  {
    if a == [] {
      assert a + b == b;
    } else {
      assert (a + b)[0] == a[0] && (a + b)[1..] == a[1..] + b;
      FilterAppend(a[1..], b, p);
    }
  }

  /** A key that differs from `prefix` at position `i` does not start with it. */
  lemma DiffersAt(s: string, prefix: string, i: nat)
    requires i < |prefix| && (i >= |s| || s[i] != prefix[i])
    ensures !StartsWith(s, prefix)
  {
    if |prefix| <= |s| {
      assert s[..|prefix|][i] == s[i];
    }
  }

  /** No key belongs to both groups. */
  lemma GroupsDisjoint(k: string)
    ensures IsPovertyKey(k) ==> !IsPopulationKey(k)
  {
    if IsPovertyKey(k) {
      assert k[0] == k[..8][0] == 'p';
      assert |k| >= 4 ==> k[..4][0] == k[0];
      assert "total"[0] == 't' && "non_"[0] == 'n' && "hispanic"[0] == 'h';
    }
  }

  const LabelOpen: string := "<label><input type=\"radio\" name=\"layers\" value=\""

  /** One radio label; it carries ` checked` when `k === current`. */
  function Label(k: string, current: Value): (r: string)
    ensures |LabelOpen| + 2 * |k| + 10 <= |r|
    ensures r[..|LabelOpen| + |k| + 1] == LabelOpen + k + "\""
    ensures r[|r| - |k| - 9..] == ">" + k + "</label>"
  {
    if Str(k) == current
    then LabelOpen + k + "\" checked>" + k + "</label>"
    else LabelOpen + k + "\">" + k + "</label>"
  }

  /** The attribute text right after `value="k"` of a label is ` checked`. */
  predicate MarkedChecked(html: string, k: string) {
    var at := |LabelOpen| + |k| + 1;
    at + 8 <= |html| && html[at..at + 8] == " checked"
  }

  /** A label is marked checked exactly when its key is the current layer. */
  lemma LabelCheckedIff(k: string, current: Value)
    ensures MarkedChecked(Label(k, current), k) <==> current == Str(k)
  {
    var at := |LabelOpen| + |k| + 1;
    var l := Label(k, current);
    if current == Str(k) {
      assert l == (LabelOpen + k + "\"") + (" checked" + ">" + k + "</label>");
    } else {
      assert l == (LabelOpen + k + "\"") + (">" + k + "</label>");
      assert l[at] == '>';
    }
  }

  /** Reference definition: the labels of `keys`, one after the other. */
  function Labels(keys: seq<string>, current: Value): string {
    if keys == [] then "" else Label(keys[0], current) + Labels(keys[1..], current)
  }

  /** The `reduce((innerHtml, l) => innerHtml + label(l), acc)` of the source: a
      left fold, which appends the labels of `keys` to `acc` in key order. */
  function Reduce(acc: string, keys: seq<string>, current: Value): (r: string)
    ensures r == acc + Labels(keys, current)
    decreases |keys|
  {
    if keys == [] then acc
    else
      var l := Label(keys[0], current);
      assert (acc + l) + Labels(keys[1..], current) == acc + (l + Labels(keys[1..], current));
      Reduce(acc + l, keys[1..], current)
  }

  /** The HTML of consecutive runs of keys is the HTML of each run, in order. */
  lemma {:induction false} LabelsAppend(a: seq<string>, b: seq<string>, current: Value)
    ensures Labels(a + b, current) == Labels(a, current) + Labels(b, current)
  {
    if a == [] {
      assert a + b == b;
    } else {
      assert (a + b)[0] == a[0] && (a + b)[1..] == a[1..] + b;
      LabelsAppend(a[1..], b, current);
    }
  }

  /** The HTML written into the `poverty` and `population` elements. */
  datatype Picker = Picker(poverty: string, population: string)

  /** `populateLayers(view)` on the `geo_units` rows and the `layer` signal. An
      empty dataset has no first row, and reading its `properties` throws: None. */
  function Populate(rows: seq<Feature>, current: Value): (r: Option<Picker>)
    ensures r.None? <==> rows == []
    ensures r.Some? ==>
              var keys := rows[0].propertyKeys;
              r.value == Picker(Labels(PovertyLayers(keys), current), Labels(PopulationLayers(keys), current))
  {
    if rows == [] then None
    else
      var keys := rows[0].propertyKeys;
      Some(Picker(Reduce("", PovertyLayers(keys), current), Reduce("", PopulationLayers(keys), current)))
  }

  /** How many of the labels written for `keys` are marked ` checked`. */
  function CheckedLabels(keys: seq<string>, current: Value): nat {
    if keys == [] then 0
    else (if MarkedChecked(Label(keys[0], current), keys[0]) then 1 else 0) + CheckedLabels(keys[1..], current)
  }

  /** One label is checked per occurrence of the current layer among the keys. */
  lemma {:induction false} CheckedLabelsOccurrences(keys: seq<string>, current: Value)
    ensures CheckedLabels(keys, current) == if current.Str? then Occurrences(keys, current.s) else 0
  {
    if keys != [] {
      LabelCheckedIff(keys[0], current);
      CheckedLabelsOccurrences(keys[1..], current);
    }
  }

  /** With distinct keys, the current layer occurs at most once in the two
      groups together, so at most one of their labels is checked. */
  lemma AtMostOneChecked(keys: seq<string>, current: Value)
    requires Distinct(keys)
    ensures var both := PovertyLayers(keys) + PopulationLayers(keys);
            && CheckedLabels(both, current) <= 1
            && (current.Str? ==> Occurrences(both, current.s) <= 1)
  {
    var pov, pop := PovertyLayers(keys), PopulationLayers(keys);
    forall k | k in pov ensures k !in pop {
      GroupsDisjoint(k);
    }
    DistinctAppend(pov, pop);
    var both := pov + pop;
    CheckedLabelsOccurrences(both, current);
    if current.Str? {
      DistinctOccursAtMostOnce(both, current.s);
    }
  }

  /** The picker `populateLayers` writes checks at most one label: the keys of a
      row are distinct, and no key is in both groups. */
  lemma PopulateChecksAtMostOne(rows: seq<Feature>, current: Value)
    ensures Populate(rows, current).Some? ==>
              var keys := rows[0].propertyKeys;
              CheckedLabels(PovertyLayers(keys) + PopulationLayers(keys), current) <= 1
  {
    if rows != [] {
      AtMostOneChecked(rows[0].propertyKeys, current);
    }
  }

  /** The property keys of the example row, in `Object.keys` order. */
  const ExampleKeys: seq<string> :=
    ["total", "non_white", "hispanic_any", "poverty_rate", "poverty_count", "other_field"]

  lemma ExampleKeysClassified()
    ensures !IsPovertyKey("total") && !IsPovertyKey("non_white") && !IsPovertyKey("hispanic_any")
    ensures IsPovertyKey("poverty_rate") && IsPovertyKey("poverty_count") && !IsPovertyKey("other_field")
    ensures IsPopulationKey("total") && IsPopulationKey("non_white") && IsPopulationKey("hispanic_any")
    ensures !IsPopulationKey("poverty_rate") && !IsPopulationKey("poverty_count") && !IsPopulationKey("other_field")
  {
    DiffersAt("total", "poverty_", 0);
    DiffersAt("non_white", "poverty_", 0);
    DiffersAt("hispanic_any", "poverty_", 0);
    DiffersAt("other_field", "poverty_", 0);
    DiffersAt("other_field", "non_", 0);
    DiffersAt("other_field", "hispanic", 0);
    assert IsPovertyKey("poverty_rate") && IsPovertyKey("poverty_count");
    GroupsDisjoint("poverty_rate");
    GroupsDisjoint("poverty_count");
  }

  lemma FilterCons(keys: seq<string>, p: string -> bool)
    requires keys != []
    ensures Filter(keys, p) == (if p(keys[0]) then [keys[0]] else []) + Filter(keys[1..], p)
  {
  }

  /** The poverty group of the documented example: `poverty_rate`, `poverty_count`. */
  lemma ExamplePovertyGroup()
    ensures PovertyLayers(ExampleKeys) == [ExampleKeys[3], ExampleKeys[4]]
  {
    var keys := ExampleKeys;
    ExampleKeysClassified();
    assert keys[5..][1..] == [];
    FilterCons(keys[5..], IsPovertyKey);
    assert keys[4..][1..] == keys[5..];
    FilterCons(keys[4..], IsPovertyKey);
    assert keys[3..][1..] == keys[4..];
    FilterCons(keys[3..], IsPovertyKey);
    assert keys[2..][1..] == keys[3..];
    FilterCons(keys[2..], IsPovertyKey);
    assert keys[1..][1..] == keys[2..];
    FilterCons(keys[1..], IsPovertyKey);
    FilterCons(keys, IsPovertyKey);
  }

  /** The population group of the documented example: `total`, `non_white`,
      `hispanic_any`; `other_field` is in neither group. */
  lemma ExamplePopulationGroup()
    ensures PopulationLayers(ExampleKeys) == [ExampleKeys[0], ExampleKeys[1], ExampleKeys[2]]
  {
    var keys := ExampleKeys;
    ExampleKeysClassified();
    assert keys[5..][1..] == [];
    FilterCons(keys[5..], IsPopulationKey);
    assert keys[4..][1..] == keys[5..];
    FilterCons(keys[4..], IsPopulationKey);
    assert keys[3..][1..] == keys[4..];
    FilterCons(keys[3..], IsPopulationKey);
    assert keys[2..][1..] == keys[3..];
    FilterCons(keys[2..], IsPopulationKey);
    assert keys[1..][1..] == keys[2..];
    FilterCons(keys[1..], IsPopulationKey);
    FilterCons(keys, IsPopulationKey);
  }
}

=== FILE: vega_layer.dfy ===
/** The Leaflet layer that hosts a Vega view (app/utils/VegaLayer.js): a counter
    of disabled signal sections, the map-to-view synchronisation `_reset`, and
    the view-to-map direction `_onSignalChange`. Each promise chain of the
    source is one atomic step here. */
module VegaLayer {
  import opened JsValues
  import opened Engine
  import opened GraphSpec

  const EnableError: string := "too many signal enables"

  /** The three map signals the layer listens to and injects into the spec. */
  const ListenedSignals: seq<string> := ["latitude", "longitude", "zoom"]

  /** The view signals hold the viewport: size, centre and zoom. */
  predicate InSync(signals: map<string, Value>, vp: Viewport) {
    && TrackedSignals <= signals.Keys
    && signals["width"] == Num(vp.sx)
    && signals["height"] == Num(vp.sy)
    && signals["latitude"] == Num(vp.lat)
    && signals["longitude"] == Num(vp.lng)
    && signals["zoom"] == Num(vp.zoom)
  }

  /** The signal values after `_reset` has sent the viewport. */
  function Synced(signals: map<string, Value>, vp: Viewport): (r: map<string, Value>)
    ensures r.Keys == signals.Keys + TrackedSignals
    ensures InSync(r, vp)
    ensures forall k :: k in signals && k !in TrackedSignals ==> r[k] == signals[k]
  {
    signals["width" := Num(vp.sx)]["height" := Num(vp.sy)]
           ["latitude" := Num(vp.lat)]["longitude" := Num(vp.lng)]["zoom" := Num(vp.zoom)]
  }

  /** The write `sendSignal(name, value)` makes: one when the current value is `!==`. */
  function Send(signals: map<string, Value>, name: string, value: Value): seq<ViewOp>
    requires name in signals
  {
    if signals[name] != value then [Wrote(name, value)] else []
  }

  /** The writes of one `_reset`, in the order width, height, latitude, longitude, zoom. */
  function SyncWrites(signals: map<string, Value>, vp: Viewport): (w: seq<ViewOp>)
    requires TrackedSignals <= signals.Keys
    ensures w == [] <==> InSync(signals, vp)
    ensures |w| <= 5
    ensures forall op :: op in w ==> op.Wrote? && op.name in TrackedSignals && signals[op.name] != op.value
  {
    Send(signals, "width", Num(vp.sx)) + Send(signals, "height", Num(vp.sy))
      + Send(signals, "latitude", Num(vp.lat)) + Send(signals, "longitude", Num(vp.lng))
      + Send(signals, "zoom", Num(vp.zoom))
  }

  /** Once the view holds the viewport, a further `_reset` writes nothing. */
  lemma SyncedIsStable(signals: map<string, Value>, vp: Viewport)
    ensures SyncWrites(Synced(signals, vp), vp) == []
    ensures Synced(Synced(signals, vp), vp) == Synced(signals, vp)
  {
  }

  /** The viewport after the view changed one of its components. */
  function WithComponent(vp: Viewport, sig: string, value: int): Viewport
    requires sig in ListenedSignals
  {
    if sig == "latitude" then vp.(lat := value)
    else if sig == "longitude" then vp.(lng := value)
    else vp.(zoom := value)
  }

  /** `_reset`'s `sendSignal`: writes only a differing value, and says with 1 or 0
      whether it wrote. */
  method SendSignal(view: View, sig: string, value: Value) returns (bit: int)
    requires view.Valid() && sig in view.signals
    modifies view`signals, view`log
    ensures view.Valid()
    ensures bit == (if old(view.signals)[sig] != value then 1 else 0)
    ensures view.signals == old(view.signals)[sig := value]
    ensures view.log == old(view.log) + Send(old(view.signals), sig, value)
  {
    if view.signals[sig] != value {
      view.SetSignal(sig, value);
      bit := 1;
    } else {
      bit := 0;
    }
  }

  /** A signal not yet sent still holds its value from before the `_reset`. */
  lemma SendElsewhere(before: map<string, Value>, now: map<string, Value>, name: string, value: Value)
    requires name in before && name in now && now[name] == before[name]
    ensures Send(now, name, value) == Send(before, name, value)
  {
  }

  /** The five `changed |= sendSignal(...)` lines of `_reset`. */
  method SendViewport(v: View, vp: Viewport) returns (changed: int)
    requires v.Valid()
    modifies v`signals, v`log
    ensures v.Valid()
    ensures v.signals == Synced(old(v.signals), vp)
    ensures v.log == old(v.log) + SyncWrites(old(v.signals), vp)
    ensures changed == if InSync(old(v.signals), vp) then 0 else 1
  {
    ghost var s0, l0 := v.signals, v.log;
    changed := 0;
    var bit := SendSignal(v, "width", Num(vp.sx));
    changed := BitOr(changed, bit);
    ghost var w := Send(s0, "width", Num(vp.sx));
    assert v.log == l0 + w && (changed == 1 <==> w != []);
    SendElsewhere(s0, v.signals, "height", Num(vp.sy));
    bit := SendSignal(v, "height", Num(vp.sy));
    changed := BitOr(changed, bit);
    w := w + Send(s0, "height", Num(vp.sy));
    assert v.log == l0 + w && (changed == 1 <==> w != []);
    SendElsewhere(s0, v.signals, "latitude", Num(vp.lat));
    bit := SendSignal(v, "latitude", Num(vp.lat));
    changed := BitOr(changed, bit);
    w := w + Send(s0, "latitude", Num(vp.lat));
    assert v.log == l0 + w && (changed == 1 <==> w != []);
    SendElsewhere(s0, v.signals, "longitude", Num(vp.lng));
    bit := SendSignal(v, "longitude", Num(vp.lng));
    changed := BitOr(changed, bit);
    w := w + Send(s0, "longitude", Num(vp.lng));
    assert v.log == l0 + w && (changed == 1 <==> w != []);
    SendElsewhere(s0, v.signals, "zoom", Num(vp.zoom));
    bit := SendSignal(v, "zoom", Num(vp.zoom));
    changed := BitOr(changed, bit);
    w := w + Send(s0, "zoom", Num(vp.zoom));
    assert v.log == l0 + w && (changed == 1 <==> w != []);
    assert w == SyncWrites(s0, vp);
  }

  /** `changed |= bit` on the 0/1 values `sendSignal` returns. */
  function BitOr(a: int, b: int): int {
    if a == 1 || b == 1 then 1 else 0
  }

  class VegaLayer {
    /** `_disableSignals`: enables past zero make it negative before they throw. */
    var disabled: int
    /** `_ignoreSignals`: read by `_onSignalChange`, never assigned by the layer. */
    var ignoreSignals: bool
    var mapWidget: LeafletMap?
    var view: View?
    /** `_spec`, set once the normalisation succeeded. */
    var graphSpec: Spec?
    /** The warnings handed to `onWarning` (or to the console). */
    var warnings: seq<Warning>
    /** `options.delayRepaint`: repaint on `moveend` rather than on every `move`. */
    const delayRepaint: bool

    ghost predicate Valid()
      reads this, view
    {
      view != null ==> mapWidget != null && view.Valid()
    }

    /** Leaflet's construction with `options` merged in; `initialize` follows. */
    constructor (delayRepaint: bool)
      ensures Valid()
      ensures this.delayRepaint == delayRepaint
      ensures disabled == 0 && !ignoreSignals && mapWidget == null && view == null
      ensures graphSpec == null && warnings == []
    {
      this.delayRepaint := delayRepaint;
      disabled := 0;
      ignoreSignals := false;
      mapWidget, view, graphSpec := null, null, null;
      warnings := [];
    }

    /** `initialize(spec, options)`: resets the counter and normalises `spec` in place. */
    method Initialize(spec: Spec) returns (outcome: Outcome)
      modifies this`disabled, this`graphSpec, this`warnings, spec
      ensures disabled == 0
      ensures var n := Normalized(old(spec.Snapshot()));
              spec.Snapshot() == n.spec && warnings == old(warnings) + n.warnings && outcome == n.outcome
      ensures graphSpec == if outcome == Pass then spec else old(graphSpec)
    {
      disabled := 0;
      var w;
      w, outcome := UpdateGraphSpec(spec);
      warnings := warnings + w;
      if outcome == Pass {
        graphSpec := spec;
      }
    }

    /** `disableSignals()` */
    method DisableSignals()
      modifies this`disabled
      ensures disabled == old(disabled) + 1
    {
      disabled := disabled + 1;
    }

    /** `enableSignals()`: the decrement happens before the check that throws. */
    method EnableSignals() returns (outcome: Outcome)
      modifies this`disabled
      ensures disabled == old(disabled) - 1
      ensures outcome == if disabled < 0 then Fail(EnableError) else Pass
    {
      disabled := disabled - 1;
      if disabled < 0 {
        return Fail(EnableError);
      }
      return Pass;
    }

    /** `_reset(force)`: copies size, centre and zoom into the view, writing only
        what differs, and runs the view when something changed or `force` is set.
        The counter is raised and lowered once whatever happens; the outcome is
        that of the final `enableSignals`. */
    method Reset(force: bool) returns (ran: bool, outcome: Outcome)
      requires Valid()
      modifies this`disabled, view
      ensures Valid()
      ensures disabled == old(disabled)
      ensures outcome == if old(disabled) < 0 then Fail(EnableError) else Pass
      ensures view == null ==> !ran
      ensures view != null ==>
                && view.signals == Synced(old(view.signals), mapWidget.viewport)
                && ran == (force || !InSync(old(view.signals), mapWidget.viewport))
                && view.log == old(view.log) + SyncWrites(old(view.signals), mapWidget.viewport)
                                + (if ran then [RanAsync] else [])
                && view.geoUnits == old(view.geoUnits) && view.listeners == old(view.listeners)
    {
      DisableSignals();
      if view == null {
        ran := false;
        outcome := EnableSignals();
        return;
      }
      var v := view;
      var vp := mapWidget.viewport;
      var changed := SendViewport(v, vp);
      if changed == 1 || force {
        v.RunAsync();
        ran := true;
      } else {
        ran := false;
      }
      outcome := EnableSignals();
    }

    /** `onAdd(map)`, with the view Vega built from the normalised spec passed in
        (`null` when parsing threw). A throw inside the chain is absorbed by the
        rejection handler `enableSignals`, so only an unbalanced counter fails. */
    method OnAdd(m: LeafletMap, parsed: View?) returns (outcome: Outcome)
      requires Valid()
      requires parsed != null ==> parsed.Valid()
      modifies this`disabled, this`mapWidget, this`view, m`handlers, parsed
      ensures disabled == old(disabled)
      ensures outcome == if old(disabled) < 0 then Fail(EnableError) else Pass
      ensures mapWidget == m && Valid()
      ensures m.viewport == old(m.viewport)
      ensures parsed == null ==> view == old(view) && m.handlers == old(m.handlers)
      ensures parsed != null ==>
                && view == parsed
                && parsed.listeners == old(parsed.listeners) + ListenedSignals
                && m.handlers == old(m.handlers) + [if delayRepaint then "moveend" else "move", "zoomend"]
                && parsed.signals == Synced(old(parsed.signals), m.viewport)
                && parsed.log == old(parsed.log) + SyncWrites(old(parsed.signals), m.viewport) + [RanAsync]
                && parsed.geoUnits == old(parsed.geoUnits)
    {
      DisableSignals();
      mapWidget := m;
      if parsed != null {
        Mount(parsed);
      }
      outcome := EnableSignals();
    }

    /** The part of the `onAdd` callback after `new vega.View(...)`: keep the view,
        listen to the map signals, hook `_reset` to the map's events and run the
        forced `_reset(true)`. */
    method Mount(v: View)
      requires mapWidget != null && v.Valid()
      modifies this`disabled, this`view, mapWidget`handlers, v
      ensures disabled == old(disabled) && view == v && Valid()
      ensures mapWidget.viewport == old(mapWidget.viewport)
      ensures v.listeners == old(v.listeners) + ListenedSignals
      ensures mapWidget.handlers == old(mapWidget.handlers) + [if delayRepaint then "moveend" else "move", "zoomend"]
      ensures v.signals == Synced(old(v.signals), mapWidget.viewport)
      ensures v.log == old(v.log) + SyncWrites(old(v.signals), mapWidget.viewport) + [RanAsync]
      ensures v.geoUnits == old(v.geoUnits)
    {
      view := v;
      v.AddSignalListener("latitude");
      v.AddSignalListener("longitude");
      v.AddSignalListener("zoom");
      mapWidget.On(if delayRepaint then "moveend" else "move");
      mapWidget.On("zoomend");
      var ran, inner := Reset(true);
    }

    /** `onRemove()`: finalises and drops the view; a second call does nothing. */
    method OnRemove()
      requires Valid()
      modifies this`view, view
      ensures Valid() && view == null
      ensures old(view) != null ==>
                && old(view).log == old(view.log) + [Finalized]
                && old(view).signals == old(view.signals) && old(view).geoUnits == old(view.geoUnits)
                && old(view).listeners == old(view.listeners)
    {
      if view != null {
        view.Finalize();
        view := null;
      }
    }

    /** `_onSignalChange(sig, value)`, called by Vega for `latitude`, `longitude`
        and `zoom`. It is gated only by `_ignoreSignals`, which nothing sets: the
        counter raised by `_reset` and `onAdd` does not stop it. It moves the map
        to the new component and resynchronises. */
    method OnSignalChange(sig: string, value: int)
      requires Valid() && mapWidget != null
      modifies mapWidget`viewport, this`disabled, view
      ensures Valid() && disabled == old(disabled)
      ensures ignoreSignals || sig !in ListenedSignals ==>
                mapWidget.viewport == old(mapWidget.viewport)
                && (view != null ==>
                      && view.signals == old(view.signals) && view.log == old(view.log)
                      && view.geoUnits == old(view.geoUnits) && view.listeners == old(view.listeners))
      ensures !ignoreSignals && sig in ListenedSignals ==>
                && mapWidget.viewport == WithComponent(old(mapWidget.viewport), sig, value)
                && (view != null ==>
                      && view.signals == Synced(old(view.signals), mapWidget.viewport)
                      && view.signals[sig] == Num(value)
                      && view.geoUnits == old(view.geoUnits) && view.listeners == old(view.listeners)
                      && view.log == old(view.log) + SyncWrites(old(view.signals), mapWidget.viewport)
                                     + (if InSync(old(view.signals), mapWidget.viewport) then [] else [RanAsync]))
    {
      if ignoreSignals {
        return;
      }
      var lat, lng, zoom := mapWidget.viewport.lat, mapWidget.viewport.lng, mapWidget.viewport.zoom;
      if sig == "latitude" {
        lat := value;
      } else if sig == "longitude" {
        lng := value;
      } else if sig == "zoom" {
        zoom := value;
      } else {
        return;
      }
      mapWidget.SetView(lat, lng, zoom);
      var ran, outcome := Reset(false);
    }
  }
}
